=== FILE: README.md ===
# Contract review interface: record and reconciliation model

This project models the logic of the contract review page (`core.py`). A
reviewer pages through guideline records, rates each one on a form, ticks the
contract paragraphs cited as evidence, and saves the record to a results
worksheet keyed by the guideline `id`. The page is a Streamlit script. Here,
every widget's return value and the sheet contents are inputs, and each piece
of logic beneath the UI calls is a pure function or a short method:

- `Text`: Python's `str.split` and `str.join` on one character, `str(i)` for a
  paragraph index, and `list.index`.
- `Sheet`: the results table (header and rows of string cells) and the upsert
  keyed by the `id` column (`update_or_append_to_sheets`).
- `Record`: the guideline record, with one optional field per dict key the
  program touches, and its 13-cell results row (`save_guideline`).
- `Contract`: the contract split into paragraphs, the checkbox loop that keeps
  the selection set of paragraph names in step, and `list(selection)`.
- `Form`: the review form (`display_guidelines`). It covers selector defaults,
  which follow-up questions appear, what each answer writes, and the
  `KeyError`/`ValueError` cases.
- `Review`: one run of `main`. It covers session initialisation, the cursor,
  and the Save/Previous/Next buttons. A flag chooses the form exactly as
  written or with its two defects (see "## Findings") corrected.
- `Wrappers`: `Option` and `Result`. A `Failure` is a Python exception.

What the code does, in points where one might expect otherwise:

- The results schema has the 13 columns the code creates. There is no
  `guideline_improvement_other` column. The guideline's free-text improvement
  replaces `guideline_improvement` itself.
- A rating that leaves Better/Bad does not clear the improvement entry written
  earlier. `RatedSection` and `GuidelineSection` state that the entry is left as
  it was.
- The selection set is one set for the whole session. Navigating does not
  reload it from the next record. `Review.Previous` and `Review.Next` keep it
  unchanged.
- Navigation never saves (the save calls on lines 226 and 231 are commented
  out). There is no jump-to-guideline control, and `selected_sources` is never
  parsed back from the sheet.
- The Correct/Incorrect verdict on the updated clause is never stored. Only
  the improvement answer is.

## Model

| member | source | states |
|---|---|---|
| `Sheet.Upsert` | core.py:16-34 | Fails exactly when `values` is empty, the sheet has no `id` column, or the row width differs from the header. An empty sheet is replaced by the 13-column schema. When the key is present, row count and order are kept, every row with that id becomes `values`, and all other rows stay. Otherwise the old rows are followed by exactly one new row `values`. |
| `Sheet.UpsertIntoEmpty` | core.py:21-31 | Upserting a 13-cell row into an empty sheet gives the schema header and exactly that one row. |
| `Sheet.UpsertStoresKey` | core.py:20-31 | With `id` as the first column, after an upsert some row equals `values` and carries the key. |
| `Sheet.UpsertKeyCount` | core.py:24-31 | No duplicate is created: the number of rows carrying the key stays the same when it was present, and becomes one when it was absent. |
| `Sheet.UpsertIdempotent` | core.py:20-31 | Upserting the same row twice leaves the same sheet as upserting it once. |
| `Sheet.UpsertNeedsKeyFirst` | core.py:20-28 | The key-in-first-column assumption is needed. With `id` in column two, the written row does not carry the key, and a second upsert appends a duplicate. |
| `Record.FirstMissing` | core.py:38-52 | Finds the first required entry the record lacks, in the order the row literal reads them, or reports none missing. |
| `Record.SaveRow` | core.py:37-52 | Succeeds exactly when every entry read with `g[key]` is present. Otherwise it raises for the first missing one, in source order. The row has 13 cells. Cell i is the record's entry under schema column i, and cell 0 is the id. The three `.get` entries default to "". Cell 11 is the comma-join of the sources. |
| `Record.Save` | core.py:37-53 | A missing entry fails before the sheet is touched. Otherwise the result is the upsert of the record's row, so keyed rows are overwritten in place or one row is appended, or it is the upsert's error as `StoreFailed`. On success the sheet stays rectangular and keeps its header. With `id` first, it holds the record's row under the record's id. |
| `Record.SaveIdempotent` | core.py:37-53 | A complete record saved into an empty or schema-headed sheet succeeds, and saving it twice equals saving it once. |
| `Record.SourcesCellRoundTrip` | core.py:50 | Splitting the sources cell on commas gives back the non-empty, comma-free source list. |
| `Sheet.UpsertFailureIgnoresCells` | core.py:20-31 | Whether and how the upsert fails depends only on the sheet and the row's width, not on the cells. |
| `Record.SaveFailureIgnoresSources` | core.py:37-53 | A record whose save fails fails the same way whatever selection list it holds. |
| `Record.EmptySourcesCell` | core.py:50 | An empty selection is written as the empty string. |
| `Text.Split` | core.py:73 | A literal split: count of separators + 1 pieces, none containing the separator. |
| `Text.JoinSplit` | core.py:73 | Joining the pieces with the separator restores the text. |
| `Text.SplitJoin` | core.py:50 | Splitting a join of separator-free pieces gives back the pieces, if there is at least one. |
| `Text.NatToString` | core.py:78 | `str(i)` is a non-empty string of decimal digits with no leading zero (only 0 starts with '0'). |
| `Text.DigitsValueOfNatToString` | core.py:78 | Reading the digits of `str(i)` back gives `i`. |
| `Text.NatToStringInjective` | core.py:78-85 | Two paragraph names are equal exactly when their indices are. |
| `Text.IndexOf` | core.py:101 | `list.index`: the first position holding the value, or none (`ValueError`) exactly when the value is absent. |
| `Contract.Paragraphs` | core.py:73-75 | The contract has (newlines + 1) paragraphs, and joining them with newlines restores it. |
| `Contract.Toggle` | core.py:78-85 | After box i returns `checked`, `str(i)` is selected exactly when `checked`. Every other name keeps its membership. |
| `Contract.ToggleOtherParagraphs` | core.py:78-85 | Toggling paragraph i never changes whether another paragraph j is selected. |
| `Contract.ParagraphNames` | core.py:75-78 | Every paragraph index below n has its name in the set. |
| `Contract.SyncSelection` | core.py:75-85 | After the checkbox loop, each paragraph is selected exactly when its box returned true, and names that are not paragraph names keep their membership. Boxes that all return their initial value (`str(i) in selection`) leave the selection unchanged. |
| `Contract.DisplayContract` | core.py:72-85 | After the contract viewer, each paragraph of the split contract is selected exactly when its box returned true, and every other name keeps its membership. |
| `Contract.SetToList` | core.py:186 | `list(selection)` holds each selected name exactly once. |
| `Contract.ExampleContract` | core.py:73-82 | "A\nB\n\nC" has the four paragraphs A, B, empty, C, and ticking paragraph 2 selects "2". |
| `Form.StoredIndex` | core.py:101 | A selector's default is the stored value's position, or the fallback when the entry is absent. It raises exactly when the stored value is not an option. |
| `Form.GuidelineImprovementIndex` | core.py:111 | The improvement default is the stored category, or Clarity when none is stored. As written it raises on a stored value that is not a category. Corrected, such a value shows as Other. |
| `Form.GuidelineSection` | core.py:97-117 | Fails on a missing `guideline`, or a stored rating that is not an option. As written it also fails on a missing rating. Only the rating and the improvement change, and the rating is an option. A picked rating is the one stored, and an untouched selector keeps the stored rating, or Pending. The improvement is written only for Better/Bad: it gets the chosen category, or the free text for Other. An untouched improvement selector answers with its default: the stored category, Clarity when none is stored, and (corrected) Other for a stored free text. For any other rating the improvement is left as it was. |
| `Form.StatusSection` | core.py:119-123 | Fails exactly when the stored status is not an option. Only the status changes and it is an option. A picked status is the one stored, and an untouched radio keeps the stored status or NOT_APPLICABLE. |
| `Form.RatedSection` | core.py:130-168 | For reason and comment, a missing text raises `KeyError` before anything else, then a stored rating that is not an option raises `ValueError`. Any failure names a missing text or a stored value that is not an option, and a record without such problems succeeds. Only the text, the rating and the `_improvement_other` entry change. A picked rating is the one stored, and an untouched selector keeps the stored rating, or Pending. That entry is written only for Better/Bad, with the chosen category or the free text for Other. An untouched improvement selector answers with the stored `_improvement` entry, or Clarity when none is stored. For other ratings the entry is left as it was. |
| `Form.ClauseSection` | core.py:169-184 | Fails only on a missing clause text, or a stored clause improvement that is not an option. A missing clause text always raises `KeyError`. Only the clause text and its improvement answer change. Correct leaves the answer as it was. Incorrect writes the category, or the free text for Other. An untouched selector answers with the stored `update_clause_improvement`, or "Changes too extensive" when none is stored. |
| `Form.ApplyForm` | core.py:93-191 | With both defects corrected, a renderable record always renders. Only the form's entries change, the sources hold the selection list, and the ratings and status are options of their selectors. |
| `Form.ApplyFormAsWritten` | core.py:99-105 | A record with a guideline but no rating raises `KeyError` on `guideline_quality`. |
| `Form.SelectorsShowStoredValues` | core.py:99-156 | On a renderable record, untouched selectors write back the stored ratings and status. A record never rated gets Pending, and one without a status gets NOT_APPLICABLE. |
| `Form.RerenderSucceeds` | core.py:108-117 | A record the corrected form produced is renderable again, so the next run cannot raise. |
| `Form.AsWrittenAgreesWhenRated` | core.py:99-117 | When the record has a rating, and its stored improvement is absent or a category, the form as written gives the same outcome as the corrected one. |
| `Form.StoredFreeTextRaises` | core.py:108-111 | As written, a record rated Better or Bad whose stored improvement is not a category raises `ValueError` on `guideline_improvement` while the rating is kept. |
| `Form.OtherGuidelineImprovementBreaksNextRender` | core.py:108-117 | As written, rating a renderable record Bad and choosing Other succeeds. It stores the text box's value as the improvement, whatever that value is, as long as it is not a category ("" included). The next run that keeps the rating then raises `ValueError` naming that text. The corrected form renders that record again. |
| `Review.Init` | core.py:197-204 | Present session entries are kept. Absent ones start at cursor 0, an empty selection, and the loaded records. A fresh session over a non-empty sheet is valid. |
| `Review.Previous` | core.py:225-228 | At the first record Previous is a no-op. Otherwise it moves back by exactly one. It keeps the cursor in range and leaves the records and selection alone. |
| `Review.Next` | core.py:230-233 | At the last record Next is a no-op. Otherwise it moves forward by exactly one. It keeps the cursor in range and leaves the records and selection alone. |
| `Review.NavigationInverse` | core.py:224-233 | Previous undoes a Next that moved, and Next undoes a Previous that moved. |
| `Review.Presses` | core.py:224-233 | n presses of Next stop at the last record, and n presses of Previous stop at the first. The cursor stays in range throughout. |
| `Review.Draw` | core.py:210-215 | Fails with `ContractMissing` exactly when the record at the cursor has no contract, and otherwise only with the error the form raises. As written, a record with a guideline but no rating always fails. Corrected, a renderable record with a contract always succeeds. On success the cursor stays, only the record at the cursor changes, and it becomes the form's output over a listing of the new selection. Each paragraph's box decides its membership, and the record's sources are the selection. |
| `Review.Step` | core.py:194-233 | Fails with `CursorOutOfRange` exactly when the cursor has no record, and with `ContractMissing` exactly when that record has no contract. `FormFailed` carries the error the form raises on that record. `SaveFailed` happens only on Save, and carries exactly the error `save_guideline` raises on the form's output (over any selection list, since the list does not change the error). As written, a record with a guideline but no rating fails on every run. Corrected, a renderable record with a contract fails only on Save. On success only the record at the cursor changes, and it becomes the form's output, for the chosen build, over a listing of the new selection. Each paragraph's box decides its membership, and the record's sources are the selection. Only Save touches the sheet, and the sheet after Save is exactly what `save_guideline` makes of the edited record: the upsert of its row. Only Previous and Next move the cursor, and they respect its bounds. |

## Left out

- Streamlit rendering, CSS, headers, `print`, `st.rerun` and the progress bar
  (lines 236-237, float division): UI plumbing. Widget returns are inputs.
  `Review.Step` sees at most one button click per run, as a Streamlit run does.
- Google Sheets reads and writes (`read_from_sheets`, `conn.update`, secrets):
  network storage. The sheet read is a parameter, and the sheet to write back is
  the result.
- The read-modify-write race between concurrent reviewers: a concurrency issue
  with no locking in the code. The last write wins.
- pandas details: cells are strings, so numeric ids and empty (NaN) cells are
  not modelled. An empty cell read into a selector acts like a stored value that
  is not an option. Two `id` headers are not modelled (the first is used).
  `DataFrame.append` was removed in pandas 2; the model gives its intended
  append.
- Data-sheet columns the code never reads are not record fields.
- The "Selected Sources" lines (91, 125-128) only display the selection. Line 91
  sorts the names as strings, not numbers; line 127 does not sort.
- Sheet.Upsert: any width mismatch is a `WidthMismatch` failure. The model does
  not tell apart the different `ValueError`s pandas raises in the two branches.
- Review.Step: an exception ends the run with a `Failure` and no state. The
  original keeps the in-place edits made to the session dict before the
  exception was raised.
- Form.RatedSection: the failure contract does not say that a bad stored
  improvement raises only when the rating is Better or Bad.
- Form.ClauseSection: the failure contract does not say that a stored
  `update_clause_improvement` that is not an option raises only when the verdict
  is Incorrect (line 177 is reached only then).

## Findings

| source | as written | input that shows it | evidently intended | confidence | as-written member | corrected member |
|---|---|---|---|---|---|---|
| core.py:101-105 | The debug print on line 104 reads `guideline["guideline_quality"]` before line 105 assigns it. A record without that entry raises `KeyError`, even though line 101 prepared a "Pending" default for it. | A record from a data sheet with no `guideline_quality` column. | The selector starts at Pending and the form is drawn. | high (not executed) | `Form.ApplyFormAsWritten` | `Form.GuidelineSection` |
| core.py:108-117 | Choosing "Other" stores the text box's value in `guideline_improvement` (line 115). On the run that first shows the box, that value is "", since the box has no initial value. On the next run that keeps the rating Better or Bad, line 111 computes the selector's default as `.index` of that value and raises `ValueError`. | Rate Bad, choose Other, then any click that keeps the rating. | The stored free text shows as "Other", and the form is drawn again. | high (not executed) | `Form.OtherGuidelineImprovementBreaksNextRender` | `Form.GuidelineImprovementIndex` |

=== FILE: contract.dfy ===
/** The contract viewer (`display_contract`): the contract text split into
    paragraphs, one checkbox per paragraph, and the selection set of paragraph
    names (`str(i)`) the checkboxes keep in step. Checkbox returns are inputs. */
module Contract {
  import opened Text

  /** `contract.split("\n")`. */
  function Paragraphs(contract: string): (ps: seq<string>)
    ensures |ps| == Count(contract, '\n') + 1
    ensures Join(ps, '\n') == contract
  {
    JoinSplit(contract, '\n');
    Split(contract, '\n')
  }

  /** The selection after paragraph `i`'s checkbox returned `checked`: its name
      added when ticked, discarded when not. */
  function Toggle(selection: set<string>, i: nat, checked: bool): (r: set<string>)
    ensures NatToString(i) in r <==> checked
    ensures forall x :: x != NatToString(i) ==> (x in r <==> x in selection)
  {
    if checked then selection + {NatToString(i)} else selection - {NatToString(i)}
  }

  /** Toggling one paragraph leaves every other paragraph's membership alone. */
  lemma ToggleOtherParagraphs(selection: set<string>, i: nat, checked: bool, j: nat)
    requires j != i
    ensures NatToString(j) in Toggle(selection, i, checked) <==> NatToString(j) in selection
  {
    NatToStringInjective(i, j);
  }

  /** The names of paragraphs `0 .. n-1`. */
  function ParagraphNames(n: nat): (names: set<string>)
    ensures forall i :: 0 <= i < n ==> NatToString(i) in names
  {
    set i | 0 <= i < n :: NatToString(i)
  }

  /** The checkbox loop over all paragraphs: afterwards paragraph `i` is selected
      exactly when its box returned true, and names that are not paragraph names
      of this contract keep their membership. */
  method SyncSelection(selection: set<string>, ticks: seq<bool>) returns (r: set<string>)
    ensures forall i :: 0 <= i < |ticks| ==> (NatToString(i) in r <==> ticks[i])
    ensures forall x :: x !in ParagraphNames(|ticks|) ==> (x in r <==> x in selection)
    // boxes that all return their initial value (`str(i) in selection`) change nothing
    ensures (forall i :: 0 <= i < |ticks| ==> ticks[i] == (NatToString(i) in selection)) ==> r == selection
  {
    r := selection;
    var k := 0;
    while k < |ticks|
      invariant k <= |ticks|
      invariant forall i :: 0 <= i < k ==> (NatToString(i) in r <==> ticks[i])
      invariant forall x :: x !in ParagraphNames(k) ==> (x in r <==> x in selection)
    {
      SyncStep(selection, ticks, k, r);
      r := Toggle(r, k, ticks[k]);
      k := k + 1;
    }
    if forall i :: 0 <= i < |ticks| ==> ticks[i] == (NatToString(i) in selection) {
      UntouchedBoxesKeepSelection(selection, ticks, r);
    }
  }

  /** One pass of the checkbox loop: toggling box `k` extends the loop's
      invariant from the first `k` paragraphs to the first `k + 1`. */
  lemma SyncStep(selection: set<string>, ticks: seq<bool>, k: nat, r: set<string>)
    requires k < |ticks|
    requires forall i :: 0 <= i < k ==> (NatToString(i) in r <==> ticks[i])
    requires forall x :: x !in ParagraphNames(k) ==> (x in r <==> x in selection)
    ensures forall i :: 0 <= i < k + 1 ==> (NatToString(i) in Toggle(r, k, ticks[k]) <==> ticks[i])
    ensures forall x :: x !in ParagraphNames(k + 1) ==> (x in Toggle(r, k, ticks[k]) <==> x in selection)
  {
    forall i | 0 <= i < k
      ensures NatToString(i) in Toggle(r, k, ticks[k]) <==> ticks[i]
    {
      ToggleOtherParagraphs(r, k, ticks[k], i);
    }
    assert ParagraphNames(k + 1) == ParagraphNames(k) + {NatToString(k)};
  }

  /** Boxes that return what they were initialised with (`str(i) in selection`)
      leave the selection as it was. */
  lemma UntouchedBoxesKeepSelection(selection: set<string>, ticks: seq<bool>, r: set<string>)
    requires forall i :: 0 <= i < |ticks| ==> ticks[i] == (NatToString(i) in selection)
    requires forall i :: 0 <= i < |ticks| ==> (NatToString(i) in r <==> ticks[i])
    requires forall x :: x !in ParagraphNames(|ticks|) ==> (x in r <==> x in selection)
    ensures r == selection
  {
    forall x | x in ParagraphNames(|ticks|)
      ensures x in r <==> x in selection
    {
      var i :| 0 <= i < |ticks| && x == NatToString(i);
    }
  }

  /** `display_contract` (lines 57-91) as far as it changes state: the contract
      split into paragraphs and every paragraph's checkbox applied to the
      selection, `ticks(i)` being what box `i` returns. */
  method DisplayContract(contract: string, selection: set<string>, ticks: nat -> bool) returns (r: set<string>)
    ensures forall i :: 0 <= i < |Paragraphs(contract)| ==> (NatToString(i) in r <==> ticks(i))
    ensures forall x :: x !in ParagraphNames(|Paragraphs(contract)|) ==> (x in r <==> x in selection)
  {
    var paragraphs := Paragraphs(contract);
    var boxes := seq(|paragraphs|, i requires 0 <= i < |paragraphs| => ticks(i));
    r := SyncSelection(selection, boxes);
  }

  /** `list(selection)`: every name exactly once, in some order. */
  method SetToList(selection: set<string>) returns (xs: seq<string>)
    ensures multiset(xs) == multiset(selection)
    ensures |xs| == |selection|
  {
    xs := [];
    var rest := selection;
    while rest != {}
      invariant rest <= selection
      invariant multiset(xs) + multiset(rest) == multiset(selection)
      decreases |rest|
    {
      var x :| x in rest;
      xs := xs + [x];
      rest := rest - {x};
    }
    assert |multiset(xs)| == |multiset(selection)|;
  }

  /** Example: the text "A\nB\n\nC" has four paragraphs, the third empty, and
      ticking that one selects "2". */
  lemma ExampleContract()
    ensures Paragraphs("A\nB\n\nC") == ["A", "B", "", "C"]
    ensures Toggle({}, 2, true) == {"2"}
  {
    var ps := ["A", "B", "", "C"];
    assert Join(ps[3..], '\n') == "C";
    assert Join(ps[2..], '\n') == "\nC";
    assert Join(ps[1..], '\n') == "B\n\nC";
    assert Join(ps, '\n') == "A\nB\n\nC";
    SplitJoin(ps, '\n');
    assert NatToString(2) == "2";
  }
}

=== FILE: form.dfy ===
/** The review form (`display_guidelines`): each widget's default is derived
    from the record, the widget's return value is an input, and the record's
    entries are rewritten section by section. A `KeyError` or `ValueError` the
    original raises is a `Failure` naming the key.

    Two defects of the original are modelled by `Build`: `AsWritten` follows the
    code line for line, `Corrected` is the evidently intended behaviour
    (`ApplyForm`). A run of the page (`Review.Step`) takes either. */
module Form {
  import opened Wrappers
  import opened Text
  import opened Record

  const Qualities: seq<string> := ["Pending", "Excellent", "Good", "Better", "Bad"]
  const GuidelineImprovements: seq<string> := ["Clarity", "Specificity", "Relevance", "Other"]
  const CommentImprovements: seq<string> := ["Clarity", "Detail", "Relevance", "Other"]
  const Statuses: seq<string> := ["FOLLOWED", "NOT_FOLLOWED", "NOT_APPLICABLE"]
  const Verdicts: seq<string> := ["Correct", "Incorrect"]
  const ClauseImprovements: seq<string> :=
    ["Changes too extensive", "Does not meet guideline", "Content inaccuracies", "Other"]

  /** The ratings that reveal an improvement question. */
  predicate NeedsImprovement(quality: string)
  {
    quality == "Better" || quality == "Bad"
  }

  /** What a selectbox or radio returns: its default, or the option at `index`. */
  datatype Choice = Keep | Pick(index: nat)

  /** What a text widget returns: its initial value, or what was typed. */
  datatype Entry = Unchanged | Typed(text: string)

  predicate Fits(c: Choice, options: seq<string>)
  {
    c.Pick? ==> c.index < |options|
  }

  function Chosen(options: seq<string>, default: nat, c: Choice): (v: string)
    requires default < |options| && Fits(c, options)
    ensures v in options
  {
    match c
    case Keep => options[default]
    case Pick(i) => options[i]
  }

  function Entered(e: Entry, initial: string): string
  {
    match e
    case Unchanged => initial
    case Typed(t) => t
  }

  /** The entry is absent or holds one of `options`. */
  predicate AbsentOr(stored: Option<string>, options: seq<string>)
  {
    stored.Some? ==> stored.value in options
  }

  /** The stored value, or `default` when the entry is absent. */
  function OrElse(stored: Option<string>, default: string): string
  {
    if stored.Some? then stored.value else default
  }

  /** A widget's default position: `options.index(stored)` when the entry
      `key` is present (`ValueError` when it is not an option), `absent` when not. */
  function StoredIndex(stored: Option<string>, key: string, options: seq<string>, absent: nat)
    : (r: Result<nat, ReadError>)
    requires absent < |options|
    ensures r.Success? <==> AbsentOr(stored, options)
    ensures r.Success? ==> r.value < |options| && options[r.value] == OrElse(stored, options[absent])
    ensures r.Failure? ==> r.error == NotAnOption(key, stored.value)
  {
    match stored
    case None => Success(absent)
    case Some(v) =>
      match IndexOf(options, v)
      case None => Failure(NotAnOption(key, v))
      case Some(i) => Success(i)
  }

  datatype Build = AsWritten | Corrected

  /** Default position of the guideline-improvement selectbox. As written it is
      `options.index(stored value)`, which raises once the free text of an
      "Other" answer has been stored there; corrected, such a value shows as
      "Other". */
  function GuidelineImprovementIndex(build: Build, stored: Option<string>): (r: Result<nat, ReadError>)
    ensures build == AsWritten ==> (r.Success? <==> AbsentOr(stored, GuidelineImprovements))
    ensures build == Corrected ==> r.Success?
    ensures r.Success? ==> r.value < |GuidelineImprovements|
    ensures r.Success? && AbsentOr(stored, GuidelineImprovements) ==>
              GuidelineImprovements[r.value] == OrElse(stored, "Clarity")
    ensures r.Success? && !AbsentOr(stored, GuidelineImprovements) ==>
              GuidelineImprovements[r.value] == "Other"
    ensures r.Failure? ==> stored.Some? && r.error == NotAnOption("guideline_improvement", stored.value)
  {
    if build == Corrected && !AbsentOr(stored, GuidelineImprovements) then Success(3)
    else StoredIndex(stored, "guideline_improvement", GuidelineImprovements, 0)
  }

  /** Widget returns for one rated text (reason or comment). */
  datatype RatedInputs = RatedInputs(text: Entry, quality: Choice, improvement: Choice, other: Entry)

  /** Widget returns for one rendering of the form. */
  datatype Inputs = Inputs(
    guidelineQuality: Choice, guidelineImprovement: Choice, guidelineOther: Entry,
    status: Choice,
    reason: RatedInputs,
    comment: RatedInputs,
    clauseText: Entry, clauseVerdict: Choice, clauseImprovement: Choice, clauseOther: Entry)

  /** A selectbox only ever returns one of its own options. */
  predicate WidgetsFit(inp: Inputs)
  {
    && Fits(inp.guidelineQuality, Qualities)
    && Fits(inp.guidelineImprovement, GuidelineImprovements)
    && Fits(inp.status, Statuses)
    && Fits(inp.reason.quality, Qualities)
    && Fits(inp.reason.improvement, GuidelineImprovements)
    && Fits(inp.comment.quality, Qualities)
    && Fits(inp.comment.improvement, CommentImprovements)
    && Fits(inp.clauseVerdict, Verdicts)
    && Fits(inp.clauseImprovement, ClauseImprovements)
  }

  /** The value an improvement question leaves: the category, or for "Other"
      the free text (whose input starts empty). */
  function Improvement(category: string, other: Entry): string
  {
    if category == "Other" then Entered(other, "") else category
  }

  /** Lines 97-117: the guideline's quality and, when it is Better or Bad, its
      improvement, replaced by the free text when "Other" is chosen. */
  function GuidelineSection(build: Build, g: Guideline, inp: Inputs): (r: Result<Guideline, ReadError>)
    requires WidgetsFit(inp)
    ensures g.guideline.None? ==> r == Failure(KeyMissing("guideline"))
    ensures g.guideline.Some? && !AbsentOr(g.guidelineQuality, Qualities) ==>
              r == Failure(NotAnOption("guideline_quality", g.guidelineQuality.value))
    ensures build == AsWritten && g.guideline.Some? && g.guidelineQuality.None? ==>
              r == Failure(KeyMissing("guideline_quality"))
    ensures build == Corrected ==>
              (r.Success? <==> g.guideline.Some? && AbsentOr(g.guidelineQuality, Qualities))
    // only the rating and the improvement change
    ensures r.Success? ==>
              r.value == g.(guidelineQuality := r.value.guidelineQuality,
                            guidelineImprovement := r.value.guidelineImprovement)
    ensures r.Success? ==> r.value.guidelineQuality.Some? && r.value.guidelineQuality.value in Qualities
    // an untouched selector shows the stored rating, "Pending" for none
    ensures r.Success? && inp.guidelineQuality == Keep ==>
              r.value.guidelineQuality == Some(OrElse(g.guidelineQuality, "Pending"))
    // a picked rating is the one stored
    ensures r.Success? && inp.guidelineQuality.Pick? ==>
              r.value.guidelineQuality == Some(Qualities[inp.guidelineQuality.index])
    ensures r.Success? && !NeedsImprovement(r.value.guidelineQuality.value) ==>
              r.value.guidelineImprovement == g.guidelineImprovement
    ensures r.Success? && NeedsImprovement(r.value.guidelineQuality.value) ==>
              && r.value.guidelineImprovement.Some?
              && (inp.guidelineImprovement.Pick? ==>
                    r.value.guidelineImprovement.value ==
                      Improvement(GuidelineImprovements[inp.guidelineImprovement.index], inp.guidelineOther))
              // an untouched selector answers with its default: the stored category,
              // "Clarity" for none, and (corrected) "Other" for a stored free text
              && (inp.guidelineImprovement == Keep ==>
                    r.value.guidelineImprovement.value ==
                      Improvement(if AbsentOr(g.guidelineImprovement, GuidelineImprovements)
                                  then OrElse(g.guidelineImprovement, "Clarity") else "Other",
                                  inp.guidelineOther))
  {
    if g.guideline.None? then Failure(KeyMissing("guideline"))
    else
      var d :- StoredIndex(g.guidelineQuality, "guideline_quality", Qualities, 0);
      // the debugging print on line 104 reads the entry before line 105 sets it
      if build == AsWritten && g.guidelineQuality.None? then Failure(KeyMissing("guideline_quality"))
      else
        var quality := Chosen(Qualities, d, inp.guidelineQuality);
        var g1 := g.(guidelineQuality := Some(quality));
        if !NeedsImprovement(quality) then Success(g1)
        else
          var di :- GuidelineImprovementIndex(build, g1.guidelineImprovement);
          var c := Chosen(GuidelineImprovements, di, inp.guidelineImprovement);
          Success(g1.(guidelineImprovement := Some(Improvement(c, inp.guidelineOther))))
  }

  /** Lines 119-123: the status radio, defaulting to NOT_APPLICABLE. */
  function StatusSection(g: Guideline, c: Choice): (r: Result<Guideline, ReadError>)
    requires Fits(c, Statuses)
    ensures r.Success? <==> AbsentOr(g.status, Statuses)
    ensures r.Failure? ==> r.error == NotAnOption("status", g.status.value)
    ensures r.Success? ==> r.value == g.(status := r.value.status)
    ensures r.Success? ==> r.value.status.Some? && r.value.status.value in Statuses
    ensures r.Success? && c == Keep ==> r.value.status == Some(OrElse(g.status, "NOT_APPLICABLE"))
    ensures r.Success? && c.Pick? ==> r.value.status == Some(Statuses[c.index])
  {
    var d :- StoredIndex(g.status, "status", Statuses, 2);
    Success(g.(status := Some(Chosen(Statuses, d, c))))
  }

  /** The two rated texts, which the form treats alike. */
  datatype Part = ReasonPart | CommentPart

  function TextOf(p: Part, g: Guideline): Option<string>
  {
    match p
    case ReasonPart => g.reason
    case CommentPart => g.comment
  }

  function QualityOf(p: Part, g: Guideline): Option<string>
  {
    match p
    case ReasonPart => g.reasonQuality
    case CommentPart => g.commentQuality
  }

  /** The entry the improvement selector's default is read from. */
  function ImprovementOf(p: Part, g: Guideline): Option<string>
  {
    match p
    case ReasonPart => g.reasonImprovement
    case CommentPart => g.commentImprovement
  }

  /** The entry the improvement answer is written to. */
  function OtherOf(p: Part, g: Guideline): Option<string>
  {
    match p
    case ReasonPart => g.reasonImprovementOther
    case CommentPart => g.commentImprovementOther
  }

  /** `g` with the part's text, rating and improvement answer replaced. */
  function WithPart(p: Part, g: Guideline, text: Option<string>, quality: Option<string>, other: Option<string>)
    : Guideline
  {
    match p
    case ReasonPart => g.(reason := text, reasonQuality := quality, reasonImprovementOther := other)
    case CommentPart => g.(comment := text, commentQuality := quality, commentImprovementOther := other)
  }

  function TextKey(p: Part): string
  {
    match p
    case ReasonPart => "reason"
    case CommentPart => "comment"
  }

  function QualityKey(p: Part): string
  {
    match p
    case ReasonPart => "reason_quality"
    case CommentPart => "comment_quality"
  }

  function ImprovementKey(p: Part): string
  {
    match p
    case ReasonPart => "reason_improvement"
    case CommentPart => "comment_improvement"
  }

  function Categories(p: Part): seq<string>
  {
    match p
    case ReasonPart => GuidelineImprovements
    case CommentPart => CommentImprovements
  }

  /** Lines 130-148 (reason) and 150-168 (comment): the text, its quality and,
      when that is Better or Bad, the `_improvement_other` entry set to the chosen
      category or, for "Other", to the free text. Any other quality leaves that
      entry as it was. */
  function RatedSection(p: Part, g: Guideline, inp: RatedInputs): (r: Result<Guideline, ReadError>)
    requires Fits(inp.quality, Qualities) && Fits(inp.improvement, Categories(p))
    ensures r.Failure? ==>
              || (TextOf(p, g).None? && r.error == KeyMissing(TextKey(p)))
              || (!AbsentOr(QualityOf(p, g), Qualities)
                  && r.error == NotAnOption(QualityKey(p), QualityOf(p, g).value))
              || (!AbsentOr(ImprovementOf(p, g), Categories(p))
                  && r.error == NotAnOption(ImprovementKey(p), ImprovementOf(p, g).value))
    // the text is read before any selector is built
    ensures TextOf(p, g).None? ==> r == Failure(KeyMissing(TextKey(p)))
    ensures TextOf(p, g).Some? && !AbsentOr(QualityOf(p, g), Qualities) ==>
              r == Failure(NotAnOption(QualityKey(p), QualityOf(p, g).value))
    ensures (&& TextOf(p, g).Some? && AbsentOr(QualityOf(p, g), Qualities)
             && AbsentOr(ImprovementOf(p, g), Categories(p))) ==> r.Success?
    // only the text, the rating and the improvement answer change
    ensures r.Success? ==> r.value == WithPart(p, g, TextOf(p, r.value), QualityOf(p, r.value), OtherOf(p, r.value))
    ensures r.Success? ==> TextOf(p, g).Some? && TextOf(p, r.value) == Some(Entered(inp.text, TextOf(p, g).value))
    ensures r.Success? ==> QualityOf(p, r.value).Some? && QualityOf(p, r.value).value in Qualities
    ensures r.Success? && inp.quality == Keep ==>
              QualityOf(p, r.value) == Some(OrElse(QualityOf(p, g), "Pending"))
    ensures r.Success? && inp.quality.Pick? ==> QualityOf(p, r.value) == Some(Qualities[inp.quality.index])
    ensures r.Success? && !NeedsImprovement(QualityOf(p, r.value).value) ==>
              OtherOf(p, r.value) == OtherOf(p, g)
    ensures r.Success? && NeedsImprovement(QualityOf(p, r.value).value) ==>
              && OtherOf(p, r.value).Some?
              && (inp.improvement.Pick? ==>
                    OtherOf(p, r.value).value == Improvement(Categories(p)[inp.improvement.index], inp.other))
              // an untouched selector answers with the stored improvement, "Clarity" for none
              && (inp.improvement == Keep ==>
                    OtherOf(p, r.value).value == Improvement(OrElse(ImprovementOf(p, g), "Clarity"), inp.other))
  {
    if TextOf(p, g).None? then Failure(KeyMissing(TextKey(p)))
    else
      var text := Entered(inp.text, TextOf(p, g).value);
      var d :- StoredIndex(QualityOf(p, g), QualityKey(p), Qualities, 0);
      var quality := Chosen(Qualities, d, inp.quality);
      if !NeedsImprovement(quality) then
        Success(WithPart(p, g, Some(text), Some(quality), OtherOf(p, g)))
      else
        var di :- StoredIndex(ImprovementOf(p, g), ImprovementKey(p), Categories(p), 0);
        var c := Chosen(Categories(p), di, inp.improvement);
        Success(WithPart(p, g, Some(text), Some(quality), Some(Improvement(c, inp.other))))
  }

  /** Lines 169-184: the updated clause text and the Correct/Incorrect radio
      (default Correct, never stored); Incorrect sets
      `update_clause_improvement_other` to the category or the free text. */
  function ClauseSection(g: Guideline, inp: Inputs): (r: Result<Guideline, ReadError>)
    requires WidgetsFit(inp)
    ensures r.Failure? ==>
              || (g.updateClauseText.None? && r.error == KeyMissing("update_clause_text"))
              || (!AbsentOr(g.updateClauseImprovement, ClauseImprovements)
                  && r.error == NotAnOption("update_clause_improvement", g.updateClauseImprovement.value))
    ensures g.updateClauseText.None? ==> r == Failure(KeyMissing("update_clause_text"))
    ensures g.updateClauseText.Some? && AbsentOr(g.updateClauseImprovement, ClauseImprovements) ==> r.Success?
    ensures r.Success? ==>
              r.value == g.(updateClauseText := r.value.updateClauseText,
                            updateClauseImprovementOther := r.value.updateClauseImprovementOther)
    ensures r.Success? ==>
              g.updateClauseText.Some? && r.value.updateClauseText == Some(Entered(inp.clauseText, g.updateClauseText.value))
    ensures r.Success? && Chosen(Verdicts, 0, inp.clauseVerdict) == "Correct" ==>
              r.value.updateClauseImprovementOther == g.updateClauseImprovementOther
    ensures r.Success? && Chosen(Verdicts, 0, inp.clauseVerdict) == "Incorrect" ==>
              && r.value.updateClauseImprovementOther.Some?
              && (inp.clauseImprovement.Pick? ==>
                    r.value.updateClauseImprovementOther.value ==
                      Improvement(ClauseImprovements[inp.clauseImprovement.index], inp.clauseOther))
              // an untouched selector answers with the stored improvement,
              // "Changes too extensive" for none
              && (inp.clauseImprovement == Keep ==>
                    r.value.updateClauseImprovementOther.value ==
                      Improvement(OrElse(g.updateClauseImprovement, "Changes too extensive"), inp.clauseOther))
  {
    if g.updateClauseText.None? then Failure(KeyMissing("update_clause_text"))
    else
      var g1 := g.(updateClauseText := Some(Entered(inp.clauseText, g.updateClauseText.value)));
      if Chosen(Verdicts, 0, inp.clauseVerdict) != "Incorrect" then Success(g1)
      else
        var di :- StoredIndex(g.updateClauseImprovement, "update_clause_improvement", ClauseImprovements, 0);
        var c := Chosen(ClauseImprovements, di, inp.clauseImprovement);
        Success(g1.(updateClauseImprovementOther := Some(Improvement(c, inp.clauseOther))))
  }

  /** Every entry the form reads is present or holds one of its options, so that
      a rendering cannot raise. */
  predicate Renderable(g: Guideline)
  {
    && g.guideline.Some? && g.reason.Some? && g.comment.Some? && g.updateClauseText.Some?
    && AbsentOr(g.guidelineQuality, Qualities)
    && AbsentOr(g.status, Statuses)
    && AbsentOr(g.reasonQuality, Qualities)
    && AbsentOr(g.reasonImprovement, GuidelineImprovements)
    && AbsentOr(g.commentQuality, Qualities)
    && AbsentOr(g.commentImprovement, CommentImprovements)
    && AbsentOr(g.updateClauseImprovement, ClauseImprovements)
  }

  /** `r` differs from `g` only in the entries the form writes. */
  predicate FormOnlyChanges(g: Guideline, r: Guideline)
  {
    r == g.(guidelineQuality := r.guidelineQuality, guidelineImprovement := r.guidelineImprovement,
            status := r.status,
            reason := r.reason, reasonQuality := r.reasonQuality,
            reasonImprovementOther := r.reasonImprovementOther,
            comment := r.comment, commentQuality := r.commentQuality,
            commentImprovementOther := r.commentImprovementOther,
            updateClauseText := r.updateClauseText,
            updateClauseImprovementOther := r.updateClauseImprovementOther,
            selectedSources := r.selectedSources)
  }

  /** One rendering of the form over record `g` (lines 93-191), ending with the
      selection list stored as its `selected_sources` (line 186). */
  function ApplyFormWith(build: Build, g: Guideline, inp: Inputs, sources: seq<string>)
    : (r: Result<Guideline, ReadError>)
    requires WidgetsFit(inp)
  {
    var g1 :- GuidelineSection(build, g, inp);
    var g2 :- StatusSection(g1, inp.status);
    var g3 :- RatedSection(ReasonPart, g2, inp.reason);
    var g4 :- RatedSection(CommentPart, g3, inp.comment);
    var g5 :- ClauseSection(g4, inp);
    Success(g5.(selectedSources := Some(sources)))
  }

  /** The form as the program evidently intends it: the quality selector falls
      back to "Pending" when the record has no rating, and a free-text guideline
      improvement shows as "Other" when the form is drawn again. Only the
      form's entries change, the ratings and status it leaves are options of
      their selectors, and it cannot fail on a renderable record. */
  function ApplyForm(g: Guideline, inp: Inputs, sources: seq<string>): (r: Result<Guideline, ReadError>)
    requires WidgetsFit(inp)
    ensures Renderable(g) ==> r.Success?
    ensures r.Success? ==>
              && FormOnlyChanges(g, r.value)
              && r.value.selectedSources == Some(sources)
              && r.value.guideline.Some? && r.value.reason.Some? && r.value.comment.Some?
              && r.value.updateClauseText.Some?
              && r.value.guidelineQuality.Some? && r.value.guidelineQuality.value in Qualities
              && r.value.status.Some? && r.value.status.value in Statuses
              && r.value.reasonQuality.Some? && r.value.reasonQuality.value in Qualities
              && r.value.commentQuality.Some? && r.value.commentQuality.value in Qualities
  {
    var r := ApplyFormWith(Corrected, g, inp, sources);
    ApplyFormFacts(Corrected, g, inp, sources);
    r
  }

  /** The selection list only ends up in `selected_sources`: whether a rendering
      raises, and everything else it writes, does not depend on it. */
  lemma FailureIgnoresSources(build: Build, g: Guideline, inp: Inputs, sources: seq<string>)
    requires WidgetsFit(inp)
    ensures ApplyFormWith(build, g, inp, sources).Failure? ==>
              ApplyFormWith(build, g, inp, sources) == ApplyFormWith(build, g, inp, [])
    ensures ApplyFormWith(build, g, inp, []).Failure? ==> ApplyFormWith(build, g, inp, sources).Failure?
    ensures ApplyFormWith(build, g, inp, sources).Success? ==>
              ApplyFormWith(build, g, inp, sources).value
                == ApplyFormWith(build, g, inp, []).value.(selectedSources := Some(sources))
    ensures ApplyFormWith(build, g, inp, sources).Success? ==>
              ApplyFormWith(build, g, inp, sources).value.selectedSources == Some(sources)
  {
    var r1 := GuidelineSection(build, g, inp);
    if r1.Success? {
      var r2 := StatusSection(r1.value, inp.status);
      if r2.Success? {
        var r3 := RatedSection(ReasonPart, r2.value, inp.reason);
        if r3.Success? {
          var r4 := RatedSection(CommentPart, r3.value, inp.comment);
          if r4.Success? {
            var r5 := ClauseSection(r4.value, inp);
            if r5.Success? {
              assert ApplyFormWith(build, g, inp, sources).Success?;
              assert ApplyFormWith(build, g, inp, []).Success?;
            }
          }
        }
      }
    }
  }

  /** The form exactly as written, with the defects of line 104 and lines 111-117. */
  function ApplyFormAsWritten(g: Guideline, inp: Inputs, sources: seq<string>): (r: Result<Guideline, ReadError>)
    requires WidgetsFit(inp)
    ensures g.guideline.Some? && g.guidelineQuality.None? ==> r == Failure(KeyMissing("guideline_quality"))
  {
    ApplyFormWith(AsWritten, g, inp, sources)
  }

  /** A renderable record renders: each section finds what it reads. */
  lemma RenderableRenders(g: Guideline, inp: Inputs, sources: seq<string>)
    requires WidgetsFit(inp)
    requires Renderable(g)
    ensures ApplyFormWith(Corrected, g, inp, sources).Success?
  {
    var g1 := GuidelineSection(Corrected, g, inp).value;
    var g2 := StatusSection(g1, inp.status).value;
    var g3 := RatedSection(ReasonPart, g2, inp.reason).value;
    var g4 := RatedSection(CommentPart, g3, inp.comment).value;
  }

  lemma ApplyFormFacts(build: Build, g: Guideline, inp: Inputs, sources: seq<string>)
    requires WidgetsFit(inp)
    ensures build == Corrected && Renderable(g) ==> ApplyFormWith(build, g, inp, sources).Success?
    ensures var r := ApplyFormWith(build, g, inp, sources);
      r.Success? ==>
        && FormOnlyChanges(g, r.value)
        && r.value.selectedSources == Some(sources)
        && r.value.guideline.Some? && r.value.reason.Some? && r.value.comment.Some?
        && r.value.updateClauseText.Some?
        && r.value.guidelineQuality.Some? && r.value.guidelineQuality.value in Qualities
        && r.value.status.Some? && r.value.status.value in Statuses
        && r.value.reasonQuality.Some? && r.value.reasonQuality.value in Qualities
        && r.value.commentQuality.Some? && r.value.commentQuality.value in Qualities
  {
    if build == Corrected && Renderable(g) {
      RenderableRenders(g, inp, sources);
    }
    var r1 := GuidelineSection(build, g, inp);
    if r1.Success? {
      var r2 := StatusSection(r1.value, inp.status);
      if r2.Success? {
        var r3 := RatedSection(ReasonPart, r2.value, inp.reason);
        if r3.Success? {
          var r4 := RatedSection(CommentPart, r3.value, inp.comment);
          if r4.Success? {
            var r5 := ClauseSection(r4.value, inp);
            if r5.Success? {
              assert ApplyFormWith(build, g, inp, sources) == Success(r5.value.(selectedSources := Some(sources)));
            }
          }
        }
      }
    }
  }

  /** A form whose selectors are left alone shows, and writes back, the stored
      ratings and status: "Pending" for a record never rated, NOT_APPLICABLE
      for one without a status. */
  lemma SelectorsShowStoredValues(g: Guideline, inp: Inputs, sources: seq<string>)
    requires WidgetsFit(inp)
    requires inp.guidelineQuality == Keep && inp.status == Keep
    requires inp.reason.quality == Keep && inp.comment.quality == Keep
    requires Renderable(g)
    ensures var r := ApplyForm(g, inp, sources).value;
      && r.guidelineQuality == Some(OrElse(g.guidelineQuality, "Pending"))
      && r.status == Some(OrElse(g.status, "NOT_APPLICABLE"))
      && r.reasonQuality == Some(OrElse(g.reasonQuality, "Pending"))
      && r.commentQuality == Some(OrElse(g.commentQuality, "Pending"))
  {
    RenderableRenders(g, inp, sources);
    var g1 := GuidelineSection(Corrected, g, inp).value;
    var g2 := StatusSection(g1, inp.status).value;
    var g3 := RatedSection(ReasonPart, g2, inp.reason).value;
    var g4 := RatedSection(CommentPart, g3, inp.comment).value;
    var g5 := ClauseSection(g4, inp).value;
    assert ApplyForm(g, inp, sources).value == g5.(selectedSources := Some(sources));
  }

  /** A record the form has produced can be drawn again: whatever the reviewer
      does next, the next rendering does not raise. */
  lemma RerenderSucceeds(g: Guideline, inp: Inputs, sources: seq<string>, next: Inputs, sources': seq<string>)
    requires WidgetsFit(inp) && WidgetsFit(next)
    requires Renderable(g)
    ensures ApplyForm(g, inp, sources).Success?
    ensures Renderable(ApplyForm(g, inp, sources).value)
    ensures ApplyForm(ApplyForm(g, inp, sources).value, next, sources').Success?
  {
  }

  /** Where the record has a rating and a stored improvement that is one of
      the categories, the form as written behaves as the corrected one. */
  lemma AsWrittenAgreesWhenRated(g: Guideline, inp: Inputs, sources: seq<string>)
    requires WidgetsFit(inp)
    requires g.guidelineQuality.Some? && AbsentOr(g.guidelineImprovement, GuidelineImprovements)
    ensures ApplyFormAsWritten(g, inp, sources) == ApplyForm(g, inp, sources)
  {
    assert GuidelineImprovementIndex(AsWritten, g.guidelineImprovement)
        == GuidelineImprovementIndex(Corrected, g.guidelineImprovement);
    assert GuidelineSection(AsWritten, g, inp) == GuidelineSection(Corrected, g, inp);
    assert ApplyFormWith(AsWritten, g, inp, sources) == ApplyFormWith(Corrected, g, inp, sources);
  }

  /** As written, a record rated Better or Bad whose stored guideline
      improvement is not a category (the free text of an earlier "Other"
      answer) makes line 111 raise `ValueError` while the rating is kept. */
  lemma StoredFreeTextRaises(g: Guideline, inp: Inputs, sources: seq<string>)
    requires WidgetsFit(inp) && inp.guidelineQuality == Keep
    requires g.guideline.Some? && g.guidelineQuality.Some?
    requires g.guidelineQuality.value in Qualities && NeedsImprovement(g.guidelineQuality.value)
    requires g.guidelineImprovement.Some? && g.guidelineImprovement.value !in GuidelineImprovements
    ensures ApplyFormAsWritten(g, inp, sources) == Failure(NotAnOption("guideline_improvement", g.guidelineImprovement.value))
  {
    var d := StoredIndex(g.guidelineQuality, "guideline_quality", Qualities, 0);
    assert Chosen(Qualities, d.value, inp.guidelineQuality) == g.guidelineQuality.value;
    assert GuidelineSection(AsWritten, g, inp) == Failure(NotAnOption("guideline_improvement", g.guidelineImprovement.value));
  }

  /** As written, rating a guideline Bad, choosing "Other" and typing a reason
      stores the text where the selector's default is read from, so the next
      rendering that keeps the rating raises `ValueError`. The corrected form
      draws the same record again, showing the improvement as "Other". */
  lemma OtherGuidelineImprovementBreaksNextRender(g: Guideline, first: Inputs, text: string, sources: seq<string>,
                                                  again: Inputs, sources': seq<string>)
    requires WidgetsFit(first) && WidgetsFit(again)
    requires Renderable(g) && g.guidelineQuality.Some? && AbsentOr(g.guidelineImprovement, GuidelineImprovements)
    requires first.guidelineQuality == Pick(4) && first.guidelineImprovement == Pick(3)
    requires first.guidelineOther == Typed(text) && text !in GuidelineImprovements
    requires again.guidelineQuality == Keep
    ensures ApplyFormAsWritten(g, first, sources).Success?
    ensures ApplyFormAsWritten(g, first, sources).value.guidelineImprovement == Some(text)
    ensures ApplyFormAsWritten(ApplyFormAsWritten(g, first, sources).value, again, sources')
              == Failure(NotAnOption("guideline_improvement", text))
    ensures ApplyForm(ApplyFormAsWritten(g, first, sources).value, again, sources').Success?
  {
    AsWrittenAgreesWhenRated(g, first, sources);
    RenderableRenders(g, first, sources);
    ApplyFormFacts(Corrected, g, first, sources);
    var once := ApplyForm(g, first, sources).value;
    assert Qualities[4] == "Bad";
    assert GuidelineImprovements[3] == "Other";
    var g1 := GuidelineSection(Corrected, g, first).value;
    assert g1.guidelineImprovement == Some(text);
    var g2 := StatusSection(g1, first.status).value;
    var g3 := RatedSection(ReasonPart, g2, first.reason).value;
    var g4 := RatedSection(CommentPart, g3, first.comment).value;
    var g5 := ClauseSection(g4, first).value;
    assert once == g5.(selectedSources := Some(sources));
    assert once.guidelineQuality == Some("Bad");
    StoredFreeTextRaises(once, again, sources');
  }
}

=== FILE: record.dfy ===
/** A guideline record as the session holds it and its serialisation to a
    results row (`save_guideline`). The original record is a Python dict; every
    entry the program reads or writes is a field here, None while the dict lacks
    the key. */
module Record {
  import opened Wrappers
  import opened Text
  import opened Sheet

  datatype Guideline = Guideline(
    id: Option<string>,
    guideline: Option<string>,
    contract: Option<string>,
    guidelineQuality: Option<string>,
    guidelineImprovement: Option<string>,
    status: Option<string>,
    reason: Option<string>,
    reasonQuality: Option<string>,
    reasonImprovement: Option<string>,
    reasonImprovementOther: Option<string>,
    comment: Option<string>,
    commentQuality: Option<string>,
    commentImprovement: Option<string>,
    commentImprovementOther: Option<string>,
    updateClauseText: Option<string>,
    updateClauseImprovement: Option<string>,
    updateClauseImprovementOther: Option<string>,
    selectedSources: Option<seq<string>>)

  /** The columns of a results row, in schema order. */
  datatype Column =
    | Id | GuidelineText | GuidelineQuality | GuidelineImprovement | Status
    | Reason | ReasonQuality | ReasonImprovementOther | Comment | CommentQuality
    | CommentImprovementOther | SelectedSources | UpdateClauseImprovementOther

  const Columns: seq<Column> := [
    Id, GuidelineText, GuidelineQuality, GuidelineImprovement, Status,
    Reason, ReasonQuality, ReasonImprovementOther, Comment, CommentQuality,
    CommentImprovementOther, SelectedSources, UpdateClauseImprovementOther]

  /** The dict key, and sheet header, of a column. */
  function Name(c: Column): string
  {
    match c
    case Id => "id"
    case GuidelineText => "guideline"
    case GuidelineQuality => "guideline_quality"
    case GuidelineImprovement => "guideline_improvement"
    case Status => "status"
    case Reason => "reason"
    case ReasonQuality => "reason_quality"
    case ReasonImprovementOther => "reason_improvement_other"
    case Comment => "comment"
    case CommentQuality => "comment_quality"
    case CommentImprovementOther => "comment_improvement_other"
    case SelectedSources => "selected_sources"
    case UpdateClauseImprovementOther => "update_clause_improvement_other"
  }

  /** The cell a record provides for a column, None when the dict lacks the
      key; the sources are comma-joined. */
  function Cell(g: Guideline, c: Column): Option<string>
  {
    match c
    case Id => g.id
    case GuidelineText => g.guideline
    case GuidelineQuality => g.guidelineQuality
    case GuidelineImprovement => g.guidelineImprovement
    case Status => g.status
    case Reason => g.reason
    case ReasonQuality => g.reasonQuality
    case ReasonImprovementOther => g.reasonImprovementOther
    case Comment => g.comment
    case CommentQuality => g.commentQuality
    case CommentImprovementOther => g.commentImprovementOther
    case SelectedSources => if g.selectedSources.Some? then Some(Join(g.selectedSources.value, ',')) else None
    case UpdateClauseImprovementOther => g.updateClauseImprovementOther
  }

  /** The three entries read with `.get(key, "")`. */
  predicate Optional(c: Column)
  {
    c == ReasonImprovementOther || c == CommentImprovementOther || c == UpdateClauseImprovementOther
  }

  /** The entries read with `g[key]`, in the order the row reads them. */
  const SaveRequired: seq<Column> := [
    Id, GuidelineText, GuidelineQuality, GuidelineImprovement, Status,
    Reason, ReasonQuality, Comment, CommentQuality, SelectedSources]

  /** Every required entry is present. */
  predicate Complete(g: Guideline)
  {
    && g.id.Some? && g.guideline.Some? && g.guidelineQuality.Some? && g.guidelineImprovement.Some?
    && g.status.Some? && g.reason.Some? && g.reasonQuality.Some? && g.comment.Some?
    && g.commentQuality.Some? && g.selectedSources.Some?
  }

  /** The first of `cs` the record lacks. */
  function FirstMissing(g: Guideline, cs: seq<Column>): (r: Option<Column>)
    ensures r.None? <==> forall i :: 0 <= i < |cs| ==> Cell(g, cs[i]).Some?
    ensures r.Some? ==> exists i :: 0 <= i < |cs| && cs[i] == r.value && Cell(g, cs[i]).None?
                          && forall j :: 0 <= j < i ==> Cell(g, cs[j]).Some?
  {
    if |cs| == 0 then None
    else if Cell(g, cs[0]).None? then Some(cs[0])
    else
      var r := FirstMissing(g, cs[1..]);
      if r.Some? then
        assert forall j :: 0 <= j < |cs| - 1 ==> cs[1..][j] == cs[j + 1];
        r
      else r
  }

  function CellOrEmpty(g: Guideline, c: Column): string
  {
    if Cell(g, c).Some? then Cell(g, c).value else ""
  }

  /** The row `save_guideline` writes, or the key whose absence raises
      `KeyError` first. */
  function SaveRow(g: Guideline): (r: Result<Row, string>)
    ensures r.Success? <==> Complete(g)
    ensures r.Failure? ==> exists i :: 0 <= i < |SaveRequired| && Name(SaveRequired[i]) == r.error
                             && Cell(g, SaveRequired[i]).None?
                             && forall j :: 0 <= j < i ==> Cell(g, SaveRequired[j]).Some?
    // one cell per schema column, holding the record's entry under that column's
    // name, the optional entries defaulting to the empty string
    ensures r.Success? ==> |r.value| == |Schema| == |Columns|
    ensures r.Success? ==> forall i :: 0 <= i < |Columns| ==>
              Name(Columns[i]) == Schema[i] && r.value[i] == CellOrEmpty(g, Columns[i])
    ensures r.Success? ==> r.value[0] == g.id.value
    ensures r.Success? ==> r.value[11] == Join(g.selectedSources.value, ',')
  {
    match FirstMissing(g, SaveRequired)
    case Some(c) => Failure(Name(c))
    case None =>
      assert forall i :: 0 <= i < |SaveRequired| ==> Cell(g, SaveRequired[i]).Some?;
      assert Cell(g, SaveRequired[0]).Some? && Cell(g, SaveRequired[1]).Some?;
      assert Cell(g, SaveRequired[2]).Some? && Cell(g, SaveRequired[3]).Some?;
      assert Cell(g, SaveRequired[4]).Some? && Cell(g, SaveRequired[5]).Some?;
      assert Cell(g, SaveRequired[6]).Some? && Cell(g, SaveRequired[7]).Some?;
      assert Cell(g, SaveRequired[8]).Some? && Cell(g, SaveRequired[9]).Some?;
      Success([
        g.id.value,
        g.guideline.value,
        g.guidelineQuality.value,
        g.guidelineImprovement.value,
        g.status.value,
        g.reason.value,
        g.reasonQuality.value,
        CellOrEmpty(g, ReasonImprovementOther),
        g.comment.value,
        g.commentQuality.value,
        CellOrEmpty(g, CommentImprovementOther),
        Join(g.selectedSources.value, ','),
        CellOrEmpty(g, UpdateClauseImprovementOther)])
  }

  /** What reading a record entry raises: `KeyError` for a missing entry, and
      `ValueError` for a stored value that is not one of a widget's options. */
  datatype ReadError = KeyMissing(key: string) | NotAnOption(key: string, value: string)

  datatype SaveError = ReadFailed(error: ReadError) | StoreFailed(cause: UpsertError)

  /** `save_guideline`: serialise the record and upsert the row into the results
      sheet `t`; the result is the sheet to write back. */
  function Save(t: Table, g: Guideline): (r: Result<Table, SaveError>)
    requires Rectangular(t)
    ensures SaveRow(g).Failure? ==> r == Failure(ReadFailed(KeyMissing(SaveRow(g).error)))
    // otherwise the sheet is the upsert of the record's row, or the upsert's error
    ensures SaveRow(g).Success? ==>
              r == (match Upsert(t, SaveRow(g).value)
                    case Success(t') => Success(t')
                    case Failure(e) => Failure(StoreFailed(e)))
    ensures r.Success? ==> Rectangular(r.value) && r.value.columns == Target(t).columns
    // the saved record is in the sheet afterwards, under its own id
    ensures r.Success? && KeyedByFirst(t) ==>
      exists i :: 0 <= i < |r.value.rows| && r.value.rows[i] == SaveRow(g).value
                  && HasId(r.value.rows[i], 0, g.id.value)
  {
    match SaveRow(g)
    case Failure(key) => Failure(ReadFailed(KeyMissing(key)))
    case Success(row) =>
      match Upsert(t, row)
      case Failure(e) => Failure(StoreFailed(e))
      case Success(t') =>
        if KeyedByFirst(t) then
          UpsertStoresKey(t, row);
          Success(t')
        else Success(t')
  }

  /** A complete record saved into an empty sheet or one with the schema
      header succeeds, and saving it twice is the same as saving it once. */
  lemma SaveIdempotent(t: Table, g: Guideline)
    requires Rectangular(t) && (IsEmpty(t) || t.columns == Schema)
    requires Complete(g)
    ensures Save(t, g).Success?
    ensures Save(Save(t, g).value, g) == Save(t, g)
  {
    assert Schema[0] == "id";
    UpsertIdempotent(t, SaveRow(g).value);
  }

  /** Two records holding the same entries find the same first missing one. */
  lemma FirstMissingSameEntries(g: Guideline, h: Guideline, cs: seq<Column>)
    requires forall c :: Cell(g, c).None? <==> Cell(h, c).None?
    ensures FirstMissing(g, cs) == FirstMissing(h, cs)
  {
    if |cs| > 0 {
      FirstMissingSameEntries(g, h, cs[1..]);
    }
  }

  /** A failing save fails the same way whatever selection list the record
      holds: the list is only ever a present entry, and the row width is fixed. */
  lemma SaveFailureIgnoresSources(t: Table, g: Guideline, h: Guideline)
    requires Rectangular(t) && g.selectedSources.Some? && h.selectedSources.Some?
    requires h == g.(selectedSources := h.selectedSources)
    ensures Save(t, g).Failure? ==> Save(t, h) == Save(t, g)
  {
    forall c ensures Cell(g, c).None? <==> Cell(h, c).None? {
    }
    FirstMissingSameEntries(g, h, SaveRequired);
    assert FirstMissing(g, SaveRequired) == FirstMissing(h, SaveRequired);
    if SaveRow(g).Failure? {
      assert SaveRow(h) == SaveRow(g);
    } else {
      assert Complete(h);
      UpsertFailureIgnoresCells(t, SaveRow(g).value, SaveRow(h).value);
    }
  }

  /** An empty selection is written as the empty string. */
  lemma EmptySourcesCell(g: Guideline)
    requires Complete(g) && |g.selectedSources.value| == 0
    ensures SaveRow(g).value[11] == ""
  {
  }

  /** The selected sources survive the comma join: splitting the cell gives the
      list back whenever it is non-empty and no entry holds a comma (paragraph
      names are digits). */
  lemma SourcesCellRoundTrip(g: Guideline)
    requires Complete(g)
    requires |g.selectedSources.value| > 0
    requires forall i :: 0 <= i < |g.selectedSources.value| ==> ',' !in g.selectedSources.value[i]
    ensures Split(SaveRow(g).value[11], ',') == g.selectedSources.value
  {
    SplitJoin(g.selectedSources.value, ',');
  }
}

=== FILE: review.dfy ===
/** One run of the page script (`main`): the session state it initialises, the
    record under the cursor drawn through the contract viewer and the form, and
    the Save / Previous / Next buttons. Each user interaction reruns the script
    once; the widget returns of that interaction and the sheet contents are
    inputs, and the run's outcome is the new session and the sheet to write. */
module Review {
  import opened Wrappers
  import opened Text
  import opened Sheet
  import opened Record
  import opened Contract
  import opened Form

  /** The session: the records loaded once, the cursor, and the selection set of
      paragraph names, which is one set for the whole session. */
  datatype Session = Session(guidelines: seq<Guideline>, cursor: nat, selection: set<string>)

  /** `st.session_state` before a run: each entry may be absent. */
  datatype State = State(cursor: Option<nat>, selection: Option<set<string>>,
                         guidelines: Option<seq<Guideline>>)

  /** The cursor points at a record. */
  predicate Valid(s: Session)
  {
    s.cursor < |s.guidelines|
  }

  /** Lines 198-204: absent entries start at cursor 0, an empty selection and the
      records read from the data sheet (`loaded`); present ones are kept. */
  function Init(st: State, loaded: seq<Guideline>): (s: Session)
    ensures st.cursor.Some? ==> s.cursor == st.cursor.value
    ensures st.cursor.None? ==> s.cursor == 0
    ensures st.selection.Some? ==> s.selection == st.selection.value
    ensures st.selection.None? ==> s.selection == {}
    ensures st.guidelines.Some? ==> s.guidelines == st.guidelines.value
    ensures st.guidelines.None? ==> s.guidelines == loaded
    ensures st.cursor.None? && st.guidelines.None? && |loaded| > 0 ==> Valid(s)
  {
    Session(
      if st.guidelines.Some? then st.guidelines.value else loaded,
      if st.cursor.Some? then st.cursor.value else 0,
      if st.selection.Some? then st.selection.value else {})
  }

  /** Lines 225-228: Previous moves back unless the cursor is at the first record. */
  function Previous(s: Session): (r: Session)
    ensures r.guidelines == s.guidelines && r.selection == s.selection
    ensures s.cursor == 0 ==> r == s
    ensures s.cursor > 0 ==> r.cursor + 1 == s.cursor
    ensures Valid(s) ==> Valid(r)
  {
    if s.cursor > 0 then s.(cursor := s.cursor - 1) else s
  }

  /** Lines 230-233: Next moves forward unless the cursor is at the last record. */
  function Next(s: Session): (r: Session)
    ensures r.guidelines == s.guidelines && r.selection == s.selection
    ensures s.cursor + 1 >= |s.guidelines| ==> r == s
    ensures s.cursor + 1 < |s.guidelines| ==> r.cursor == s.cursor + 1
    ensures Valid(s) ==> Valid(r)
  {
    if s.cursor < |s.guidelines| - 1 then s.(cursor := s.cursor + 1) else s
  }

  /** Previous undoes Next wherever Next moved, and Next undoes Previous. */
  lemma NavigationInverse(s: Session)
    requires Valid(s)
    ensures s.cursor + 1 < |s.guidelines| ==> Previous(Next(s)) == s
    ensures s.cursor > 0 ==> Next(Previous(s)) == s
  {
  }

  /** From any valid position, enough presses of Next reach the last record
      and enough presses of Previous the first. */
  function Presses(s: Session, n: nat, forward: bool): (r: Session)
    requires Valid(s)
    ensures Valid(r) && r.guidelines == s.guidelines && r.selection == s.selection
    ensures forward ==> r.cursor == if s.cursor + n < |s.guidelines| then s.cursor + n else |s.guidelines| - 1
    ensures !forward ==> r.cursor == if n <= s.cursor then s.cursor - n else 0
    decreases n
  {
    if n == 0 then s
    else Presses(if forward then Next(s) else Previous(s), n - 1, forward)
  }

  /** The button pressed in this run; a run sees at most one click. */
  datatype Button = NoButton | SaveButton | PreviousButton | NextButton

  datatype StepError =
    | CursorOutOfRange                  // the records list has no entry at the cursor
    | ContractMissing                   // the record has no "contract" entry
    | FormFailed(cause: ReadError)
    | SaveFailed(reason: SaveError)

  /** What a run leaves: the session and the results sheet. */
  datatype World = World(session: Session, sheet: Table)

  /** Lines 210-215: the record at the cursor drawn through the contract viewer
      (`ticks(i)` is what box `i` returns) and the form (widget returns `inp`),
      and stored back at the cursor. */
  method Draw(build: Build, s: Session, ticks: nat -> bool, inp: Inputs) returns (r: Result<Session, StepError>)
    requires Valid(s) && WidgetsFit(inp)
    // why drawing fails
    ensures r == Failure(ContractMissing) <==> s.guidelines[s.cursor].contract.None?
    ensures r.Failure? ==> r.error == ContractMissing || r.error.FormFailed?
    ensures r.Failure? && r.error.FormFailed? ==>
              ApplyFormWith(build, s.guidelines[s.cursor], inp, []) == Failure(r.error.cause)
    ensures (&& build == AsWritten && s.guidelines[s.cursor].contract.Some?
             && s.guidelines[s.cursor].guideline.Some? && s.guidelines[s.cursor].guidelineQuality.None?)
            ==> r == Failure(FormFailed(KeyMissing("guideline_quality")))
    ensures build == Corrected && s.guidelines[s.cursor].contract.Some? && Renderable(s.guidelines[s.cursor])
            ==> r.Success?
    ensures r.Success? ==>
      var s' := r.value;
      && s'.cursor == s.cursor && Valid(s')
      // the records keep their number and order; only the one at the cursor changes
      && |s'.guidelines| == |s.guidelines|
      && (forall i :: 0 <= i < |s.guidelines| && i != s.cursor ==> s'.guidelines[i] == s.guidelines[i])
      && s.guidelines[s.cursor].contract.Some?
      // each paragraph's box decides its membership; other names are kept
      && (forall i :: 0 <= i < |Paragraphs(s.guidelines[s.cursor].contract.value)| ==>
            (NatToString(i) in s'.selection <==> ticks(i)))
      && (forall x :: x !in ParagraphNames(|Paragraphs(s.guidelines[s.cursor].contract.value)|) ==>
            (x in s'.selection <==> x in s.selection))
      // the stored record is the form's output over a listing of the selection
      && s'.guidelines[s.cursor].selectedSources.Some?
      && multiset(s'.guidelines[s.cursor].selectedSources.value) == multiset(s'.selection)
      && (exists src :: multiset(src) == multiset(s'.selection)
                        && ApplyFormWith(build, s.guidelines[s.cursor], inp, src) == Success(s'.guidelines[s.cursor]))
  {
    var g := s.guidelines[s.cursor];
    if g.contract.None? {
      return Failure(ContractMissing);
    }
    var selection := DisplayContract(g.contract.value, s.selection, ticks);
    var sources := SetToList(selection);
    assert multiset(sources) == multiset(selection);
    var form := ApplyFormWith(build, g, inp, sources);
    ApplyFormFacts(build, g, inp, sources);
    FailureIgnoresSources(build, g, inp, sources);
    if form.Failure? {
      return Failure(FormFailed(form.error));
    }
    var edited := Session(s.guidelines[s.cursor := form.value], s.cursor, selection);
    assert multiset(sources) == multiset(edited.selection)
           && ApplyFormWith(build, g, inp, sources) == Success(edited.guidelines[s.cursor]);
    r := Success(edited);
  }

  /** A Save that fails on the form's output fails the same way on the output
      over an empty selection list. */
  lemma SaveFailureOfDrawn(build: Build, g: Guideline, inp: Inputs, sources: seq<string>, sheet: Table)
    requires WidgetsFit(inp) && Rectangular(sheet)
    requires ApplyFormWith(build, g, inp, sources).Success?
    requires Save(sheet, ApplyFormWith(build, g, inp, sources).value).Failure?
    ensures ApplyFormWith(build, g, inp, []).Success?
    ensures Save(sheet, ApplyFormWith(build, g, inp, []).value) == Save(sheet, ApplyFormWith(build, g, inp, sources).value)
  {
    FailureIgnoresSources(build, g, inp, sources);
    FailureIgnoresSources(build, g, inp, []);
    var drawn := ApplyFormWith(build, g, inp, sources).value;
    var unlisted := ApplyFormWith(build, g, inp, []).value;
    assert unlisted == drawn.(selectedSources := unlisted.selectedSources);
    SaveFailureIgnoresSources(sheet, drawn, unlisted);
  }

  /** One run of `main`: initialise the session, draw the record at the cursor,
      then act on `button`. With `build == AsWritten` this is `main` line for
      line; with `Corrected` it uses the form with the two defects removed. */
  method Step(build: Build, st: State, loaded: seq<Guideline>, sheet: Table, ticks: nat -> bool,
              inp: Inputs, button: Button)
    returns (r: Result<World, StepError>)
    requires Rectangular(sheet) && WidgetsFit(inp)
    // why a run fails
    ensures r == Failure(CursorOutOfRange) <==> !Valid(Init(st, loaded))
    ensures r == Failure(ContractMissing) <==>
              Valid(Init(st, loaded)) && Init(st, loaded).guidelines[Init(st, loaded).cursor].contract.None?
    ensures r.Failure? && r.error.FormFailed? ==>
              Valid(Init(st, loaded)) &&
              ApplyFormWith(build, Init(st, loaded).guidelines[Init(st, loaded).cursor], inp, [])
                == Failure(r.error.cause)
    ensures r.Failure? && r.error.SaveFailed? ==> button == SaveButton
    // a failed Save raises what `save_guideline` raises on the form's output,
    // whose selection list does not matter to it
    ensures r.Failure? && r.error.SaveFailed? ==>
              var s := Init(st, loaded);
              && Valid(s)
              && ApplyFormWith(build, s.guidelines[s.cursor], inp, []).Success?
              && Save(sheet, ApplyFormWith(build, s.guidelines[s.cursor], inp, []).value) == Failure(r.error.reason)
    // as written, a record without a rating raises at line 104 on every run
    ensures var s := Init(st, loaded);
            (&& build == AsWritten && Valid(s) && s.guidelines[s.cursor].contract.Some?
             && s.guidelines[s.cursor].guideline.Some? && s.guidelines[s.cursor].guidelineQuality.None?)
            ==> r == Failure(FormFailed(KeyMissing("guideline_quality")))
    // the corrected run over a renderable record with a contract only fails on Save
    ensures var s := Init(st, loaded);
            (&& build == Corrected && Valid(s) && s.guidelines[s.cursor].contract.Some?
             && Renderable(s.guidelines[s.cursor]) && button != SaveButton)
            ==> r.Success?
    ensures r.Success? ==>
      var s := Init(st, loaded);
      var s' := r.value.session;
      && Valid(s) && Valid(s') && Rectangular(r.value.sheet)
      // the records keep their number and order; only the one at the cursor changes
      && |s'.guidelines| == |s.guidelines|
      && (forall i :: 0 <= i < |s.guidelines| && i != s.cursor ==> s'.guidelines[i] == s.guidelines[i])
      && s.guidelines[s.cursor].contract.Some?
      // each paragraph's box decides its membership; other names are kept
      && (forall i :: 0 <= i < |Paragraphs(s.guidelines[s.cursor].contract.value)| ==>
            (NatToString(i) in s'.selection <==> ticks(i)))
      && (forall x :: x !in ParagraphNames(|Paragraphs(s.guidelines[s.cursor].contract.value)|) ==>
            (x in s'.selection <==> x in s.selection))
      // the stored record holds the selection as its sources
      && s'.guidelines[s.cursor].selectedSources.Some?
      && multiset(s'.guidelines[s.cursor].selectedSources.value) == multiset(s'.selection)
      // only Save touches the sheet, and only Previous and Next move the cursor
      && (button != SaveButton ==> r.value.sheet == sheet)
      && (button == SaveButton || button == NoButton ==> s'.cursor == s.cursor)
      && (button == PreviousButton ==> s'.cursor == if s.cursor > 0 then s.cursor - 1 else s.cursor)
      && (button == NextButton ==>
            s'.cursor == if s.cursor + 1 < |s.guidelines| then s.cursor + 1 else s.cursor)
      && (button == SaveButton ==> SaveRow(s'.guidelines[s.cursor]).Success?)
      // the stored record is the form's output over a listing of the selection
      && (exists src :: multiset(src) == multiset(s'.selection)
                        && ApplyFormWith(build, s.guidelines[s.cursor], inp, src) == Success(s'.guidelines[s.cursor]))
      // Save writes back exactly what `save_guideline` makes of that record
      && (button == SaveButton ==> Save(sheet, s'.guidelines[s.cursor]) == Success(r.value.sheet))
      && (button == SaveButton && KeyedByFirst(sheet) ==>
            exists j :: 0 <= j < |r.value.sheet.rows| &&
              r.value.sheet.rows[j] == SaveRow(s'.guidelines[s.cursor]).value)
  {
    var s := Init(st, loaded);
    if s.cursor >= |s.guidelines| {
      return Failure(CursorOutOfRange);
    }
    var drawn := Draw(build, s, ticks, inp);
    if drawn.Failure? {
      return Failure(drawn.error);
    }
    var edited := drawn.value;
    var sheet' := sheet;
    if button == SaveButton {
      var saved := Save(sheet, edited.guidelines[s.cursor]);
      if saved.Failure? {
        ghost var src :| multiset(src) == multiset(edited.selection)
                         && ApplyFormWith(build, s.guidelines[s.cursor], inp, src) == Success(edited.guidelines[s.cursor]);
        SaveFailureOfDrawn(build, s.guidelines[s.cursor], inp, src, sheet);
        return Failure(SaveFailed(saved.error));
      }
      sheet' := saved.value;
    }
    var moved := match button
      case PreviousButton => Previous(edited)
      case NextButton => Next(edited)
      case _ => edited;
    r := Success(World(moved, sheet'));
  }
}

=== FILE: sheet.dfy ===
/** The results worksheet as the program sees it through a DataFrame: a header of
    column names and rows of cells, and the read-modify-write upsert keyed by the
    `id` column (`update_or_append_to_sheets`). Reading and writing the remote
    sheet are left to the caller: the table read is a parameter and the table to
    write back is the result. */
module Sheet {
  import opened Wrappers
  import opened Text

  type Row = seq<string>

  datatype Table = Table(columns: seq<string>, rows: seq<Row>)

  /** The thirteen columns a results sheet starts with when it is empty. */
  const Schema: seq<string> := [
    "id", "guideline", "guideline_quality", "guideline_improvement", "status",
    "reason", "reason_quality", "reason_improvement_other", "comment",
    "comment_quality", "comment_improvement_other", "selected_sources",
    "update_clause_improvement_other"]

  /** Every row has one cell per column, as in any DataFrame. */
  predicate Rectangular(t: Table)
  {
    forall i :: 0 <= i < |t.rows| ==> |t.rows[i]| == |t.columns|
  }

  /** `DataFrame.empty`: no rows or no columns. */
  predicate IsEmpty(t: Table)
  {
    |t.rows| == 0 || |t.columns| == 0
  }

  /** The frame the upsert works on: an empty sheet is replaced by a fresh frame
      with the thirteen schema columns and no rows. */
  function Target(t: Table): Table
  {
    if IsEmpty(t) then Table(Schema, []) else t
  }

  /** Position of the (first) `id` column. */
  function IdIndex(columns: seq<string>): (k: nat)
    requires "id" in columns
    ensures k < |columns| && columns[k] == "id"
  {
    IndexOf(columns, "id").value
  }

  /** Row `row` carries `id` in column `k`. */
  predicate HasId(row: Row, k: nat, id: string)
  {
    k < |row| && row[k] == id
  }

  /** Some row of `t` carries `id` in its `id` column. */
  predicate ContainsId(t: Table, id: string)
    requires "id" in t.columns
  {
    exists i :: 0 <= i < |t.rows| && HasId(t.rows[i], IdIndex(t.columns), id)
  }

  /** Number of rows carrying `id` in column `k`. */
  function CountId(rows: seq<Row>, k: nat, id: string): nat
  {
    if |rows| == 0 then 0
    else (if HasId(rows[0], k, id) then 1 else 0) + CountId(rows[1..], k, id)
  }

  /** `df.loc[df['id'] == id] = values`: every row carrying the key becomes
      `values`, every other row stays. */
  function ReplaceKeyed(rows: seq<Row>, k: nat, values: Row): seq<Row>
    requires |values| > 0
  {
    seq(|rows|, i requires 0 <= i < |rows| =>
      if HasId(rows[i], k, values[0]) then values else rows[i])
  }

  datatype UpsertError =
    | NoValues                             // values[0] raises IndexError
    | NoIdColumn                           // df['id'] raises KeyError
    | WidthMismatch(columns: nat, values: nat) // pandas rejects a row of the wrong length

  /** Upsert `values` into the sheet, keyed by `values[0]` matched against the
      `id` column. */
  function Upsert(t: Table, values: Row): (r: Result<Table, UpsertError>)
    requires Rectangular(t)
    ensures r.Success? <==>
      |values| > 0 && "id" in Target(t).columns && |values| == |Target(t).columns|
    ensures r.Failure? && |values| == 0 ==> r.error == NoValues
    ensures r.Failure? && |values| > 0 && "id" !in Target(t).columns ==> r.error == NoIdColumn
    ensures r.Success? ==> r.value.columns == Target(t).columns && Rectangular(r.value)
    // a key that is present: same rows in the same places, keyed rows overwritten
    ensures r.Success? && ContainsId(Target(t), values[0]) ==>
      && |r.value.rows| == |Target(t).rows|
      && forall i :: 0 <= i < |r.value.rows| ==>
           r.value.rows[i] ==
             (if HasId(Target(t).rows[i], IdIndex(Target(t).columns), values[0]) then values
              else Target(t).rows[i])
    // a new key: the old rows, then exactly one new row
    ensures r.Success? && !ContainsId(Target(t), values[0]) ==>
      r.value.rows == Target(t).rows + [values]
  {
    if |values| == 0 then Failure(NoValues)
    else
      var base := Target(t);
      if "id" !in base.columns then Failure(NoIdColumn)
      else if |values| != |base.columns| then Failure(WidthMismatch(|base.columns|, |values|))
      else if ContainsId(base, values[0]) then
        Success(Table(base.columns, ReplaceKeyed(base.rows, IdIndex(base.columns), values)))
      else
        Success(Table(base.columns, base.rows + [values]))
  }

  /** Whether and how an upsert fails depends on the row's width, not its cells. */
  lemma UpsertFailureIgnoresCells(t: Table, values: Row, other: Row)
    requires Rectangular(t) && |values| == |other| > 0
    ensures Upsert(t, values).Failure? ==> Upsert(t, other) == Upsert(t, values)
  {
  }

  /** The sheet has its key in the first column, which the program assumes when
      it takes `values[0]` as the key; every sheet the upsert itself creates has. */
  predicate KeyedByFirst(t: Table)
  {
    |Target(t).columns| > 0 && Target(t).columns[0] == "id"
  }

  /** An upsert into an empty sheet yields the schema and exactly the one row. */
  lemma UpsertIntoEmpty(t: Table, values: Row)
    requires Rectangular(t) && IsEmpty(t)
    requires |values| == |Schema|
    ensures Upsert(t, values) == Success(Table(Schema, [values]))
  {
    assert "id" == Schema[0];
    assert !ContainsId(Target(t), values[0]);
    assert Target(t).rows + [values] == [values];
  }

  /** After a successful upsert the key is present, in a row equal to `values`. */
  lemma UpsertStoresKey(t: Table, values: Row)
    requires Rectangular(t) && KeyedByFirst(t)
    requires Upsert(t, values).Success?
    ensures var r := Upsert(t, values).value;
      exists i :: 0 <= i < |r.rows| && r.rows[i] == values && HasId(r.rows[i], 0, values[0])
  {
    var base := Target(t);
    var r := Upsert(t, values).value;
    assert IdIndex(base.columns) == 0;
    if ContainsId(base, values[0]) {
      var i :| 0 <= i < |base.rows| && HasId(base.rows[i], 0, values[0]);
      assert r.rows[i] == values;
    } else {
      assert r.rows[|base.rows|] == values;
    }
  }

  lemma {:induction false} CountIdAppend(rows: seq<Row>, k: nat, id: string, row: Row)
    ensures CountId(rows + [row], k, id) == CountId(rows, k, id) + (if HasId(row, k, id) then 1 else 0)
    decreases |rows|
  {
    if |rows| == 0 {
      assert [row][1..] == [];
    } else {
      assert (rows + [row])[1..] == rows[1..] + [row];
      CountIdAppend(rows[1..], k, id, row);
    }
  }

  lemma {:induction false} CountIdZero(rows: seq<Row>, k: nat, id: string)
    ensures CountId(rows, k, id) == 0 <==> forall i :: 0 <= i < |rows| ==> !HasId(rows[i], k, id)
    decreases |rows|
  {
    if |rows| > 0 {
      CountIdZero(rows[1..], k, id);
      assert forall i :: 1 <= i < |rows| ==> rows[i] == rows[1..][i - 1];
    }
  }

  /** Overwriting with a row that itself carries the key keeps the number of
      keyed rows. */
  lemma {:induction false} CountIdReplaceKeyed(rows: seq<Row>, values: Row)
    requires |values| > 0
    ensures CountId(ReplaceKeyed(rows, 0, values), 0, values[0]) == CountId(rows, 0, values[0])
    decreases |rows|
  {
    if |rows| > 0 {
      var r := ReplaceKeyed(rows, 0, values);
      assert r[1..] == ReplaceKeyed(rows[1..], 0, values);
      CountIdReplaceKeyed(rows[1..], values);
    }
  }

  /** No duplicate is created: the number of rows carrying the key is unchanged
      when it was present, and one when it was not. */
  lemma UpsertKeyCount(t: Table, values: Row)
    requires Rectangular(t) && KeyedByFirst(t)
    requires Upsert(t, values).Success?
    ensures var before := CountId(Target(t).rows, 0, values[0]);
      CountId(Upsert(t, values).value.rows, 0, values[0]) == if before == 0 then 1 else before
  {
    var base := Target(t);
    assert IdIndex(base.columns) == 0;
    CountIdZero(base.rows, 0, values[0]);
    if ContainsId(base, values[0]) {
      CountIdReplaceKeyed(base.rows, values);
    } else {
      CountIdAppend(base.rows, 0, values[0], values);
    }
  }

  /** Upserting the same row twice leaves the sheet as upserting it once. */
  lemma UpsertIdempotent(t: Table, values: Row)
    requires Rectangular(t) && KeyedByFirst(t)
    requires Upsert(t, values).Success?
    ensures Upsert(Upsert(t, values).value, values) == Upsert(t, values)
  {
    var base := Target(t);
    var once := Upsert(t, values).value;
    assert IdIndex(base.columns) == 0;
    UpsertStoresKey(t, values);
    assert !IsEmpty(once);
    assert Target(once) == once;
    assert ContainsId(once, values[0]);
    var twice := Upsert(once, values).value;
    assert twice.rows == once.rows;
  }

  /** The key must sit in the first column: with `id` second, the row written
      carries another value under `id`, and a second upsert appends a duplicate. */
  lemma UpsertNeedsKeyFirst()
    ensures var t := Table(["name", "id"], [["x", "g0"]]);
      var once := Upsert(t, ["g1", "text"]).value;
      && once.rows == [["x", "g0"], ["g1", "text"]]
      && Upsert(once, ["g1", "text"]).value.rows == [["x", "g0"], ["g1", "text"], ["g1", "text"]]
  {
    var t := Table(["name", "id"], [["x", "g0"]]);
    assert IdIndex(t.columns) == 1;
    assert !ContainsId(t, "g1");
    var once := Upsert(t, ["g1", "text"]).value;
    assert !HasId(once.rows[1], 1, "g1");
    assert !ContainsId(once, "g1");
  }
}

=== FILE: text.dfy ===
/** Strings and lists of strings as the program's Python handles them:
    `str.split` and `str.join` on a one-character separator, `str(i)` for a
    non-negative integer, and `list.index`. */
module Text {
  import opened Wrappers

  /** Number of occurrences of `c` in `s`. */
  function Count(s: string, c: char): nat
  {
    if |s| == 0 then 0 else (if s[0] == c then 1 else 0) + Count(s[1..], c)
  }

  /** `s.split(sep)`: a literal split, so consecutive, leading and trailing
      separators produce empty pieces and the empty string splits into `[""]`. */
  function Split(s: string, sep: char): (parts: seq<string>)
    ensures |parts| == Count(s, sep) + 1
    ensures forall i :: 0 <= i < |parts| ==> sep !in parts[i]
    decreases |s|
  {
    if |s| == 0 then [""]
    else
      var rest := Split(s[1..], sep);
      if s[0] == sep then [""] + rest
      else [[s[0]] + rest[0]] + rest[1..]
  }

  /** `sep.join(parts)`. */
  function Join(parts: seq<string>, sep: char): string
  {
    if |parts| == 0 then ""
    else if |parts| == 1 then parts[0]
    else parts[0] + [sep] + Join(parts[1..], sep)
  }

  lemma JoinPrependChar(c: char, parts: seq<string>, sep: char)
    requires |parts| > 0
    ensures Join([[c] + parts[0]] + parts[1..], sep) == [c] + Join(parts, sep)
  {
    var q := [[c] + parts[0]] + parts[1..];
    assert q[1..] == parts[1..];
  }

  /** Joining the pieces of a split with the same separator gives the text back. */
  lemma {:induction false} JoinSplit(s: string, sep: char)
    ensures Join(Split(s, sep), sep) == s
    decreases |s|
  {
    if |s| > 0 {
      var rest := Split(s[1..], sep);
      JoinSplit(s[1..], sep);
      if s[0] == sep {
        assert ([""] + rest)[1..] == rest;
        assert s == [s[0]] + s[1..];
      } else {
        JoinPrependChar(s[0], rest, sep);
        assert s == [s[0]] + s[1..];
      }
    }
  }

  /** Splitting `x + y`, where `x` holds no separator, glues `x` to the first
      piece of `y`. */
  lemma {:induction false} SplitPrepend(x: string, y: string, sep: char)
    requires sep !in x
    ensures Split(x + y, sep) == [x + Split(y, sep)[0]] + Split(y, sep)[1..]
    decreases |x|
  {
    if |x| > 0 {
      SplitPrepend(x[1..], y, sep);
      assert (x + y)[1..] == x[1..] + y;
      assert (x + y)[0] == x[0];
      assert [x[0]] + (x[1..] + Split(y, sep)[0]) == x + Split(y, sep)[0];
    } else {
      var py := Split(y, sep);
      assert x + y == y;
      assert x + py[0] == py[0];
      assert py == [py[0]] + py[1..];
    }
  }

  /** Splitting a join restores the pieces, provided there is at least one piece
      and none of them contains the separator. */
  lemma {:induction false} SplitJoin(parts: seq<string>, sep: char)
    requires |parts| > 0
    requires forall i :: 0 <= i < |parts| ==> sep !in parts[i]
    ensures Split(Join(parts, sep), sep) == parts
    decreases |parts|
  {
    if |parts| == 1 {
      SplitPrepend(parts[0], "", sep);
      assert parts[0] + "" == parts[0];
    } else {
      var tail := Join(parts[1..], sep);
      var rest := [sep] + tail;
      assert Join(parts, sep) == parts[0] + rest;
      SplitJoin(parts[1..], sep);
      SplitPrepend(parts[0], rest, sep);
      assert rest[1..] == tail;
      assert Split(rest, sep) == [""] + parts[1..];
      assert parts[0] + "" == parts[0];
      assert parts == [parts[0]] + parts[1..];
    }
  }

  function Digit(d: nat): (c: char)
    requires d < 10
    ensures '0' <= c <= '9'
  {
    ('0' as int + d) as char
  }

  /** `str(n)` for a non-negative integer: its decimal digits, most significant first. */
  function NatToString(n: nat): (s: string)
    ensures |s| > 0
    ensures forall i :: 0 <= i < |s| ==> '0' <= s[i] <= '9'
    // no leading zero: only 0 itself is written starting with '0'
    ensures s[0] == '0' ==> n == 0
    decreases n
  {
    if n < 10 then [Digit(n)] else NatToString(n / 10) + [Digit(n % 10)]
  }

  /** The number a string of decimal digits denotes. */
  function DigitsValue(s: string): nat
    requires forall i :: 0 <= i < |s| ==> '0' <= s[i] <= '9'
  {
    if |s| == 0 then 0
    else DigitsValue(s[..|s| - 1]) * 10 + (s[|s| - 1] as int - '0' as int)
  }

  /** Reading back the digits `str(n)` writes gives `n`. */
  lemma {:induction false} DigitsValueOfNatToString(n: nat)
    ensures DigitsValue(NatToString(n)) == n
    decreases n
  {
    var s := NatToString(n);
    if n >= 10 {
      DigitsValueOfNatToString(n / 10);
      assert s[..|s| - 1] == NatToString(n / 10);
    }
  }

  /** Distinct paragraph indices have distinct names. */
  lemma NatToStringInjective(a: nat, b: nat)
    ensures NatToString(a) == NatToString(b) <==> a == b
  {
    DigitsValueOfNatToString(a);
    DigitsValueOfNatToString(b);
  }

  /** `xs.index(x)`: the position of the first occurrence, or None where Python
      raises `ValueError`. */
  function IndexOf(xs: seq<string>, x: string): (r: Option<nat>)
    ensures r.Some? <==> x in xs
    ensures r.Some? ==> r.value < |xs| && xs[r.value] == x
    ensures r.Some? ==> forall j :: 0 <= j < r.value ==> xs[j] != x
  {
    if |xs| == 0 then None
    else if xs[0] == x then Some(0)
    else
      var rest := IndexOf(xs[1..], x);
      if rest.None? then None
      else Some(rest.value + 1)
  }
}

=== FILE: wrappers.dfy ===
/** Failure-compatible wrappers used across the model: an optional value and a
    value-or-error result, both usable with `:-`. */
module Wrappers {

  datatype Option<+T> = None | Some(value: T)

  /** The outcome of an operation that raises in the original program: either its
      value or the error it raises. */
  datatype Result<+T, +E> = Success(value: T) | Failure(error: E) {

    predicate IsFailure() {
      Failure?
    }

    function PropagateFailure<U>(): Result<U, E>
      requires Failure?
    {
      Failure(error)
    }

    function Extract(): T
      requires Success?
    {
      value
    }
  }
}
